=== FILE: README.md ===
# Minimarket cart model

A Dafny model of the cart logic of a storefront web client. It covers three
React components with the rendering, hooks and network removed:

- the catalog page (`PageMercado`): add-to-cart, which merges lines by `_id`;
  the item count; and the product filter by category and case-insensitive search;
- the cart dialog (`DialogCarrinho`): remove, typed quantity, minus/plus buttons,
  the total, the order payload, and the reaction to the order-creation outcome;
- the dashboard (`PagePainel`): the order-status label/colour lookup and the
  cart button and badge.

The cart is a sequence of `Item` records `{id, name, category, price, quantity}`.
Every operation is a pure function on it. Each page mirrors its cart into
`localStorage` under `cartItems`. That storage is modelled as a key→cart map
(`Storage.Store`). Each React effect is a function run after the handler that
changed the cart.

Modules:

- `Base`: `Option`, and the JavaScript `map` and `filter` with their laws.
- `Cart`: the line-item type, the sums behind the item count and the total, and
  the update-by-`_id` that every quantity handler is built from.
- `Storage`: `setItem`, `removeItem`, and the `'[]'` default read at mount.
- `CartSync`: the storage effect and the button/badge rules that the catalog
  page and the dashboard both implement.
- `DialogCarrinho`, `PageMercado`, `PagePainel`: one module per component.

Behaviour of the code that a reader might not expect:

- Neither add-to-cart nor the typed quantity is clamped to [1, 99]. Only the
  minus and plus buttons clamp.
- Nothing guards against a second submit. `handleSubmit` sets `posted` again.
- After a success, `removeItem('cartItems')` runs. The emptied cart then
  re-triggers the cart effect, which writes `[]` back under the key.
  `Resolve` models both steps. `OnOutcome` models only the first.
- The payload is fixed when submit is clicked (`EditKeepsPayload`). `totalFinal`,
  the amount shown after success, is the live total when the success arrives
  (`TotalFinalIsLiveTotal`): one plus click between submit and success doubles
  it for a one-unit order.
- The cart dialog is rendered with its page, not when it is opened, so its
  submit state lives as long as the page. Besides row edits it writes the page's
  cart twice: at its mount (the stored cart, when the key is present) and after
  a completed order (the empty cart). Both are events of the page models.
- A category named `""` is falsy in `selectedCategory ? … : true`, so it filters
  nothing (`EmptyCategoryIsNoCategory`).

## Model

| member | source | states |
|---|---|---|
| `Cart.Reduce` | src/components/pages/mercado/PageMercado.tsx:44 | The accumulator loop of `reduce` seeded with 0 returns the sum of the weight over all lines; the item count and the total are this sum for quantity and for price×quantity. |
| `Cart.SumByAppend` | src/components/dialogCarrinho/DialogCarrinho.tsx:40 | The reduction is additive: the sum over a concatenation is the sum of the two parts. |
| `Cart.SumBySplit` | src/components/pages/painel/PagePainel.tsx:68 | Any sum over the cart is the sum before a line, plus that line, plus the sum after it. |
| `Cart.SumByUpdateAt` | src/components/dialogCarrinho/DialogCarrinho.tsx:40 | Replacing one line moves the sum by exactly that line's difference (no drift). |
| `Cart.CountAtLeastLines` | src/components/pages/painel/PagePainel.tsx:66-70 | With all quantities ≥ 1 the item count is at least the number of lines, so it is 0 exactly for the empty cart. |
| `Cart.TotalAtLeastLines` | src/components/dialogCarrinho/DialogCarrinho.tsx:38-42 | With all prices and quantities ≥ 1 the total is at least the number of lines, so it is positive exactly for a non-empty cart. |
| `Cart.TwoLineScenario` | src/components/dialogCarrinho/DialogCarrinho.tsx:40-41 | Lines 10.00×2 and 5.00×1 give total 25.00 and item count 3. |
| `Cart.Adjust` | src/components/dialogCarrinho/DialogCarrinho.tsx:48-70 | The keyed `map`: lines with the `_id` get their quantity transformed, all other lines, the order, the length and the id sequence are unchanged, and distinctness of ids is preserved both ways. |
| `Cart.AdjustAbsent` | src/components/dialogCarrinho/DialogCarrinho.tsx:50-51 | A keyed update on an `_id` not in the cart returns the cart unchanged. |
| `Cart.AdjustSum` | src/components/dialogCarrinho/DialogCarrinho.tsx:56-70 | With distinct ids, a keyed update moves any sum (count or total) by exactly the one touched line's difference. |
| `Cart.FilterKeepsDistinct` | src/components/dialogCarrinho/DialogCarrinho.tsx:45 | Filtering a cart with distinct ids leaves distinct ids. |
| `Cart.FilterKeepsPositive` | src/components/dialogCarrinho/DialogCarrinho.tsx:44-46 | Filtering a cart with positive quantities leaves positive quantities. |
| `Base.Filter` | src/components/pages/mercado/PageMercado.tsx:69 | `filter` returns the input when every element passes and the empty sequence when none does; never longer than its input. `FilterCount` and `FilterIsSubsequence` pin the mixed case. |
| `Base.FilterCount` | src/components/pages/mercado/PageMercado.tsx:69-73 | `filter` keeps every occurrence of a passing value and no occurrence of a failing one: the multiplicity of each value in the result is its multiplicity in the input if it passes, else 0. |
| `Base.FilterMembers` | src/components/pages/mercado/PageMercado.tsx:72 | `filter` keeps an element iff it passes: every result element is an input element that passes, and every passing input element is in the result. |
| `Base.FilterDropsOne` | src/components/dialogCarrinho/DialogCarrinho.tsx:45 | When exactly one element fails the predicate, `filter` returns the input with just that element cut out. |
| `Base.FilterIsSubsequence` | src/components/pages/mercado/PageMercado.tsx:69-73 | `filter` preserves order: its result is a subsequence of its input. |
| `Storage.SetItem` | src/components/pages/mercado/PageMercado.tsx:43 | After `setItem` the key holds the written cart and every other key keeps its value. |
| `Storage.RemoveItem` | src/components/dialogCarrinho/DialogCarrinho.tsx:107 | After `removeItem` the key is absent and every other key keeps its value. |
| `Storage.SaveThenLoad` | src/components/pages/mercado/PageMercado.tsx:35-43 | Reading the cart back after a write returns exactly what was written. |
| `Storage.RemoveThenLoad` | src/components/pages/painel/PagePainel.tsx:60-63 | After the key is removed, the mount-time read yields the empty cart (the `'[]'` default). |
| `CartSync.Effect` | src/components/pages/mercado/PageMercado.tsx:42-46 | After the cart effect the stored snapshot equals the cart and the count equals its item count; the cart and all other keys are untouched. |
| `CartSync.Mount` | src/components/pages/painel/PagePainel.tsx:60-70 | A mounted page starts from the stored cart (empty when absent, with count 0) and is synced. |
| `CartSync.SetCart` | src/components/pages/mercado/PageMercado.tsx:58-61 | `setCartItems(c)` followed by its effect leaves the page holding `c`, synced. |
| `CartSync.DialogMounted` | src/components/dialogCarrinho/DialogCarrinho.tsx:31-36 | The dialog's mount read leaves the page synced, holding the stored cart when the key is present and its own cart otherwise; other keys are untouched. |
| `CartSync.DialogMountedKeepsSynced` | src/components/dialogCarrinho/DialogCarrinho.tsx:31-36 | On a synced page the dialog's mount read changes nothing. |
| `CartSync.OrderSucceeded` | src/components/dialogCarrinho/DialogCarrinho.tsx:105-110 | After a completed order the page's cart is empty, its count is 0, the key holds `[]` again, and other keys are untouched. |
| `CartSync.OrderThenReload` | src/components/dialogCarrinho/DialogCarrinho.tsx:105-110 | After a completed order the page's button is disabled, no badge shows, and a reload starts from the empty cart. |
| `CartSync.ReloadRestores` | src/components/pages/mercado/PageMercado.tsx:35-46 | Reload round trip: mounting from a synced page's storage restores its cart and its count. |
| `CartSync.EffectIdempotent` | src/components/pages/painel/PagePainel.tsx:66-70 | Running the effect on a synced page changes nothing. |
| `CartSync.ButtonAndBadge` | src/components/pages/painel/PagePainel.tsx:142-147 | On a synced page with positive quantities, `disabled={!cartItemCount}` holds exactly for the empty cart, and the badge (`cartItemCount > 0`) shows exactly when the button is enabled. |
| `DialogCarrinho.Remove` | src/components/dialogCarrinho/DialogCarrinho.tsx:44-46 | After removal no line has the id. Every other line survives with its multiplicity and nothing else does, in order (a subsequence). Removing an absent id is a no-op. Distinct ids and positive quantities are kept. |
| `DialogCarrinho.RemoveSplits` | src/components/dialogCarrinho/DialogCarrinho.tsx:45 | With distinct ids, removing a present line is cutting it out: the lines before it followed by the lines after it. |
| `DialogCarrinho.RemoveSum` | src/components/dialogCarrinho/DialogCarrinho.tsx:38-46 | With distinct ids, removing a line lowers the count and the total by exactly that line's contribution. |
| `DialogCarrinho.SetQuantity` | src/components/dialogCarrinho/DialogCarrinho.tsx:48-54 | Matching lines take exactly the given quantity with no clamping; other lines, length, ids and order are unchanged. |
| `DialogCarrinho.SetQuantityIdempotent` | src/components/dialogCarrinho/DialogCarrinho.tsx:48-54 | Typing the same quantity twice equals typing it once. |
| `DialogCarrinho.SetQuantityTotal` | src/components/dialogCarrinho/DialogCarrinho.tsx:38-54 | With distinct ids, typing q on a line moves the total by price×(q − old quantity). |
| `DialogCarrinho.TypedQuantityUnclamped` | src/components/dialogCarrinho/DialogCarrinho.tsx:136-142 | The `min`/`max` attributes enforce nothing: a typed 0 or 150 is stored as is. |
| `DialogCarrinho.Decrease` | src/components/dialogCarrinho/DialogCarrinho.tsx:56-62 | Matching lines end ≥ 1: q ≥ 2 becomes q − 1 and q ≤ 1 becomes 1; only the quantity of matching lines changes. |
| `DialogCarrinho.DecreaseSingle` | src/components/dialogCarrinho/DialogCarrinho.tsx:59 | On a one-line cart, minus maps the quantity q to max(1, q − 1). |
| `DialogCarrinho.Increase` | src/components/dialogCarrinho/DialogCarrinho.tsx:64-70 | Matching lines end ≤ 99: q ≤ 98 becomes q + 1 and q ≥ 99 (even above 99) becomes 99; only the quantity of matching lines changes. |
| `DialogCarrinho.DecreaseUndoesIncrease` | src/components/dialogCarrinho/DialogCarrinho.tsx:56-70 | Minus after plus restores the cart when the line's quantity is in [1, 98]. |
| `DialogCarrinho.IncreaseUndoesDecrease` | src/components/dialogCarrinho/DialogCarrinho.tsx:57-69 | Plus after minus restores the cart when the line's quantity is in [2, 99]. |
| `DialogCarrinho.ButtonsKeepBounds` | src/components/dialogCarrinho/DialogCarrinho.tsx:44-70 | Plus, minus and remove keep every quantity of a cart inside [1, 99]. |
| `DialogCarrinho.ApplyEdit` | src/components/dialogCarrinho/DialogCarrinho.tsx:125-164 | Every gesture on a line keeps ids distinct, and keeps the cart well formed unless a quantity below 1 is typed. |
| `DialogCarrinho.MakePayload` | src/components/dialogCarrinho/DialogCarrinho.tsx:73-79 | The payload carries the stored user id and one entry per line, in order, whose id and quantity are that line's. |
| `DialogCarrinho.PayloadUnits` | src/components/dialogCarrinho/DialogCarrinho.tsx:75-78 | The payload orders exactly as many units as the cart's item count. |
| `DialogCarrinho.Sync` | src/components/dialogCarrinho/DialogCarrinho.tsx:38-42 | After the dialog's cart effect the stored snapshot equals the cart and `total` equals its total. The cart, the submit state, `totalFinal`, `userId` and every other stored key are untouched, and the only key possibly added is `cartItems`. |
| `DialogCarrinho.Mount` | src/components/dialogCarrinho/DialogCarrinho.tsx:18-42 | The dialog as it mounts with its page is synced, not posted, has no payload and `totalFinal` 0, holds the given `userId`, and holds the stored cart when the key is present, else the page's cart. Other stored keys are untouched. |
| `DialogCarrinho.Edit` | src/components/dialogCarrinho/DialogCarrinho.tsx:125-164 | A gesture followed by the effect applies the edit and re-syncs. Payload, `posted`, `totalFinal`, `userId` and every other stored key are left alone. |
| `DialogCarrinho.FinalizeDisabledIffEmpty` | src/components/dialogCarrinho/DialogCarrinho.tsx:184 | With prices and quantities ≥ 1, `disabled={total <= 0}` holds exactly for the empty cart. |
| `DialogCarrinho.Submit` | src/components/dialogCarrinho/DialogCarrinho.tsx:72-82 | Submit sets `posted` and records the payload built from the current cart and user id. Cart, storage, totals and user id are unchanged. |
| `DialogCarrinho.SubmitIgnoresPosted` | src/components/dialogCarrinho/DialogCarrinho.tsx:80-81 | There is no double-submit guard: submit behaves the same whether or not `posted` is already raised. |
| `DialogCarrinho.EditKeepsPayload` | src/components/dialogCarrinho/DialogCarrinho.tsx:72-82 | Edits after submit do not change the payload already built. |
| `DialogCarrinho.OnOutcome` | src/components/dialogCarrinho/DialogCarrinho.tsx:90-115 | Every outcome clears `posted` and keeps payload and user id. Success empties the cart, removes the key (and only it), keeps `total`, and sets `totalFinal` to that pre-clear total. Error and 409 change nothing else. |
| `DialogCarrinho.Resolve` | src/components/dialogCarrinho/DialogCarrinho.tsx:90-115 | The outcome effect, then on success the cart effect the emptied cart triggers. Every outcome clears `posted` and keeps payload and user id. Success leaves a synced empty cart with `total` 0, `[]` under the key, `totalFinal` equal to the pre-clear total, and other keys untouched. Error and 409 only clear `posted`. |
| `DialogCarrinho.SuccessClears` | src/components/dialogCarrinho/DialogCarrinho.tsx:105-113 | After success and the effect it triggers, the cart and the stored cart are empty, `totalFinal` is the total before clearing, and the finalize button is disabled. |
| `DialogCarrinho.FailureKeepsCart` | src/components/dialogCarrinho/DialogCarrinho.tsx:90-104 | After an error or a 409 the cart, its snapshot and its total are unchanged and a retry builds the same payload. |
| `DialogCarrinho.TotalFinalIsLiveTotal` | src/components/dialogCarrinho/DialogCarrinho.tsx:108 | `totalFinal` is the live total: a plus click between submit and success reports 20.00 for a payload ordering one 10.00 unit. |
| `PageMercado.AddToCart` | src/components/pages/mercado/PageMercado.tsx:52-63 | A present id gains exactly one unit with no cap, same length and ids, other lines unchanged. An absent id appends the product with quantity 1. |
| `PageMercado.AddKeepsShape` | src/components/pages/mercado/PageMercado.tsx:52-63 | An add keeps ids distinct and quantities positive: a merge touches only the matching line, and an append happens only for an absent id. |
| `PageMercado.AddCountsOne` | src/components/pages/mercado/PageMercado.tsx:44-61 | With distinct ids, every add raises the item count by exactly one. |
| `PageMercado.AddTotal` | src/components/pages/mercado/PageMercado.tsx:53-61 | With distinct ids, an add raises the total by the price the cart line already carries, or by the catalog price for a new line. |
| `PageMercado.RemoveUndoesFirstAdd` | src/components/pages/mercado/PageMercado.tsx:59-61 | Removing a product right after its first add restores the cart. |
| `PageMercado.AddTimesGrows` | src/components/pages/mercado/PageMercado.tsx:56 | n adds on a present line raise its quantity by exactly n, keeping length and ids. |
| `PageMercado.AddTimesShift` | src/components/pages/mercado/PageMercado.tsx:52-58 | n + 1 adds are one add followed by n adds. |
| `PageMercado.AddHasNoCap` | src/components/pages/mercado/PageMercado.tsx:55-57 | One hundred adds from an empty cart reach quantity 100, past the dialog's cap of 99. |
| `PageMercado.AddTwiceFromEmpty` | src/components/pages/mercado/PageMercado.tsx:52-61 | Two adds on an empty cart give a single line at quantity 2. |
| `PageMercado.AddTwiceDecreaseTwice` | src/components/dialogCarrinho/DialogCarrinho.tsx:56-62 | Two adds then two minus clicks leave the line at 1, not 0. |
| `PageMercado.ToLower` | src/components/pages/mercado/PageMercado.tsx:71 | Lower-casing keeps the length, leaves no ASCII capital, shifts capitals by 32 and keeps every other character. |
| `PageMercado.ToLowerIdempotent` | src/components/pages/mercado/PageMercado.tsx:71 | Lower-casing twice equals lower-casing once. |
| `PageMercado.OccursShift` | src/components/pages/mercado/PageMercado.tsx:71 | Dropping the first character shifts every occurrence of the search term one place left. |
| `PageMercado.IncludesIff` | src/components/pages/mercado/PageMercado.tsx:71 | `includes` holds exactly when the term occurs at some offset of the name. |
| `PageMercado.FilteredProducts` | src/components/pages/mercado/PageMercado.tsx:69-73 | The shown products are an order-preserving subsequence of the catalog. A product is kept iff its category matches the selection and its lower-cased name contains the lower-cased term, and every copy of a matching product is kept (equal multiplicities), so the result is exactly the catalog's matching products in order. |
| `PageMercado.NoCriteriaShowsAll` | src/components/pages/mercado/PageMercado.tsx:70-71 | With no category and an empty search every product is shown. |
| `PageMercado.EmptyCategoryIsNoCategory` | src/components/pages/mercado/PageMercado.tsx:70 | Selecting the category `""` filters exactly like selecting none, since `""` is falsy. |
| `PageMercado.SearchIgnoresCase` | src/components/pages/mercado/PageMercado.tsx:71 | Searching for a term or for its lower-cased form shows the same products. |
| `PageMercado.Open` | src/components/pages/mercado/PageMercado.tsx:33-46 | A mounted catalog page holds the stored cart, is synced, and has no category and an empty search. |
| `PageMercado.Step` | src/components/pages/mercado/PageMercado.tsx:48-67 | Buying applies add-to-cart and re-syncs. A dialog edit applies the edit and re-syncs. Category and search events change only their own field, and no other event touches the category or the search. The dialog's mount read and a completed order act as `DialogMounted` and `OrderSucceeded`. Stored keys other than `cartItems` are never touched. Synced stays synced. |
| `PageMercado.RunKeepsShape` | src/components/pages/mercado/PageMercado.tsx:42-61 | Along any run of page events, dialog mounts and completed orders without a typed quantity below 1, storage keeps mirroring the cart, ids stay distinct and quantities positive. The finalize button is disabled iff the cart is empty. The badge shows iff the button is enabled. |
| `PageMercado.TypedZeroDisablesFinalize` | src/components/pages/mercado/PageMercado.tsx:206 | Typing 0 into a line leaves a non-empty cart whose finalize button is disabled. |
| `PagePainel.StatusLabelAndClass` | src/components/pages/painel/PagePainel.tsx:49-57 | `active`, `completed` and `canceled` map to (Pendente, orange), (Concluída, green) and (Cancelada, red). Every other string maps to (Desconhecido, grey). |
| `PagePainel.StatusStylesDistinct` | src/components/pages/painel/PagePainel.tsx:55-57 | Two statuses share a style only if equal or both unknown; the fallback label and colour mark exactly the unknown statuses. |
| `PagePainel.Step` | src/components/pages/painel/PagePainel.tsx:66-70 | Each dialog write (a row edit, the mount read, the clearing after a completed order) followed by the dashboard's effect re-syncs storage and count and leaves other keys untouched. |
| `PagePainel.RunKeepsButtonAndBadge` | src/components/pages/painel/PagePainel.tsx:142-151 | Along any run of dialog edits, mounts and completed orders without a typed quantity below 1, the cart button is disabled iff the cart is empty and the badge shows iff the button is enabled. |
| `PagePainel.NegativeQuantityHidesBadge` | src/components/pages/painel/PagePainel.tsx:142-147 | A typed quantity of −1 leaves the cart button enabled (count ≠ 0) while the badge is hidden (count ≤ 0). |

## Left out

- JSX rendering, styling, dialogs, toasts, QR code and `window.location.reload`: presentation only.
- React scheduling: each handler is a pure function and each effect a post-step. Re-render timing and stale closures are not modelled.
- `useCreate` and the HTTP call to `/cart/create`: network I/O whose source is not part of this model. Its result is the input `Outcome` (`Success`, `Error`, `Conflict409`). The auth token it sends is not modelled.
- Real `localStorage` and JSON: storage is a key→cart map. The `userId` key is a field of the dialog state.
- Floating-point prices: prices are integer cents, and IEEE rounding is not modelled.
- `parseInt` returning `NaN` for non-numeric input: the typed quantity is an `int`.
- Unicode `toLowerCase`: only ASCII capitals are lowered.
- Prototype keys such as `"toString"`: in JavaScript, `statusMap[status]` finds them on the object prototype, so the fallback is skipped. The model treats every string outside the three statuses as unknown.
- The catalog page renders two cart dialogs (the header's and the bottom bar's), each with its own `posted`, `payload` and request hook, sharing one cart. The model has one dialog submit state; the two instances' independent submits are not modelled.
- `formatPrice`, `formatDate` and the dashboard `stats` figures are computed outside these components.
- The order list and detail pages are read-only and out of scope.

=== FILE: base.dfy ===
/** Generic helpers mirroring the JavaScript array methods the cart components call
    (`Array.prototype.map` and `Array.prototype.filter`), plus `Math.min`/`Math.max`. */
module Base {

  /** A value that may be absent (`null` in the components). */
  datatype Option<+T> = None | Some(value: T)

  function Min(a: int, b: int): int { if a <= b then a else b }

  function Max(a: int, b: int): int { if a >= b then a else b }

  /** `xs.map(f)`: same length, element-wise image. */
  function MapSeq<T, U>(xs: seq<T>, f: T -> U): (r: seq<U>)
    ensures |r| == |xs|
    ensures forall i :: 0 <= i < |xs| ==> r[i] == f(xs[i])
  {
    seq(|xs|, i requires 0 <= i < |xs| => f(xs[i]))
  }

  /** `a` is obtained from `b` by dropping some elements and keeping the rest in order. */
  predicate IsSubsequence<T(==)>(a: seq<T>, b: seq<T>)
    decreases |b|
  {
    a == [] || (b != [] && ((a[0] == b[0] && IsSubsequence(a[1..], b[1..])) || IsSubsequence(a, b[1..])))
  }

  /** `xs.filter(keep)`: the elements satisfying `keep`, in their original order. */
  function Filter<T(==)>(xs: seq<T>, keep: T -> bool): (r: seq<T>)
    ensures |r| <= |xs|
    ensures (forall i :: 0 <= i < |xs| ==> keep(xs[i])) ==> r == xs
    ensures (forall i :: 0 <= i < |xs| ==> !keep(xs[i])) ==> r == []
    decreases |xs|
  {
    if xs == [] then []
    else if keep(xs[0]) then [xs[0]] + Filter(xs[1..], keep)
    else Filter(xs[1..], keep)
  }

  /** `filter` keeps exactly the elements satisfying `keep`. */
  lemma {:induction false} FilterMembers<T>(xs: seq<T>, keep: T -> bool)
    ensures forall i :: 0 <= i < |Filter(xs, keep)| ==> Filter(xs, keep)[i] in xs && keep(Filter(xs, keep)[i])
    ensures forall i :: 0 <= i < |xs| && keep(xs[i]) ==> xs[i] in Filter(xs, keep)
    decreases |xs|
  {
    if xs != [] {
      FilterMembers(xs[1..], keep);
      var r := Filter(xs, keep);
      var rest := Filter(xs[1..], keep);
      forall i | 0 <= i < |r|
        ensures r[i] in xs && keep(r[i])
      {
        if keep(xs[0]) && i == 0 {
        } else if keep(xs[0]) {
          assert r[i] == rest[i - 1];
        } else {
          assert r[i] == rest[i];
        }
      }
      forall i | 0 <= i < |xs| && keep(xs[i])
        ensures xs[i] in r
      {
        if i > 0 {
          assert xs[i] == xs[1..][i - 1];
        }
      }
    }
  }

  /** `filter` keeps every occurrence of a passing value and none of a failing one. */
  lemma {:induction false} FilterCount<T>(xs: seq<T>, keep: T -> bool, x: T)
    ensures multiset(Filter(xs, keep))[x] == if keep(x) then multiset(xs)[x] else 0
    decreases |xs|
  {
    if xs != [] {
      FilterCount(xs[1..], keep, x);
      assert xs == [xs[0]] + xs[1..];
      if keep(xs[0]) {
        assert Filter(xs, keep) == [xs[0]] + Filter(xs[1..], keep);
      }
    }
  }

  /** `filter` keeps order: its result is a subsequence of its input. */
  lemma {:induction false} FilterIsSubsequence<T>(xs: seq<T>, keep: T -> bool)
    ensures IsSubsequence(Filter(xs, keep), xs)
    decreases |xs|
  {
    if xs != [] {
      FilterIsSubsequence(xs[1..], keep);
    }
  }

  /** Filtering a concatenation filters each part. */
  lemma {:induction false} FilterAppend<T>(a: seq<T>, b: seq<T>, keep: T -> bool)
    ensures Filter(a + b, keep) == Filter(a, keep) + Filter(b, keep)
    decreases |a|
  {
    if a != [] {
      assert (a + b)[0] == a[0];
      assert (a + b)[1..] == a[1..] + b;
      FilterAppend(a[1..], b, keep);
    } else {
      assert a + b == b;
    }
  }

  /** Filtering with two predicates that agree on every element gives the same result. */
  lemma {:induction false} FilterCongruent<T>(xs: seq<T>, keep1: T -> bool, keep2: T -> bool)
    requires forall i :: 0 <= i < |xs| ==> keep1(xs[i]) == keep2(xs[i])
    ensures Filter(xs, keep1) == Filter(xs, keep2)
    decreases |xs|
  {
    if xs != [] {
      assert forall i :: 0 <= i < |xs[1..]| ==> xs[1..][i] == xs[i + 1];
      FilterCongruent(xs[1..], keep1, keep2);
    }
  }

  /** When exactly the element at `k` fails, `filter` cuts it out. */
  lemma {:induction false} FilterDropsOne<T>(xs: seq<T>, k: int, keep: T -> bool)
    requires 0 <= k < |xs| && !keep(xs[k])
    requires forall i :: 0 <= i < |xs| && i != k ==> keep(xs[i])
    ensures Filter(xs, keep) == xs[..k] + xs[k + 1..]
    decreases |xs|
  {
    var tail := xs[1..];
    assert forall i :: 0 <= i < |tail| ==> tail[i] == xs[i + 1];
    if k == 0 {
      assert Filter(xs, keep) == Filter(tail, keep);
    } else {
      FilterDropsOne(tail, k - 1, keep);
      assert Filter(xs, keep) == [xs[0]] + Filter(tail, keep);
      assert [xs[0]] + (tail[..k - 1] + tail[k..]) == xs[..k] + xs[k + 1..];
    }
  }
}

=== FILE: cart.dfy ===
/** The cart as the components hold it: an array of product records whose
    `PRODUCT_QUANTITY` field is the number ordered, plus the two reductions the
    pages display (item count and total) and the keyed update every quantity
    handler is built from. */
module Cart {
  import opened Base

  /** One product record (`Produto`). In the catalog `quantity` is the stock level;
      in the cart it is the number ordered. Prices are integer cents. */
  datatype Item = Item(id: string, name: string, category: string, price: int, quantity: int)

  type Cart = seq<Item>

  function IdOf(it: Item): string { it.id }

  /** The `_id`s of the cart, in order. */
  function Ids(c: Cart): seq<string> { MapSeq(c, IdOf) }

  /** No two line items share an `_id`. */
  predicate DistinctIds(c: Cart) {
    forall i, j :: 0 <= i < j < |c| ==> c[i].id != c[j].id
  }

  predicate PositiveQuantities(c: Cart) {
    forall i :: 0 <= i < |c| ==> c[i].quantity >= 1
  }

  /** The shape the catalog's add button and the dialog's +/- buttons maintain. */
  predicate WellFormed(c: Cart) {
    DistinctIds(c) && PositiveQuantities(c)
  }

  lemma IdsIndex(c: Cart, id: string)
    ensures id in Ids(c) <==> exists i :: 0 <= i < |c| && c[i].id == id
  {
    if id in Ids(c) {
      var i :| 0 <= i < |Ids(c)| && Ids(c)[i] == id;
      assert c[i].id == id;
    }
    if exists i :: 0 <= i < |c| && c[i].id == id {
      var i :| 0 <= i < |c| && c[i].id == id;
      assert Ids(c)[i] == id;
    }
  }

  // ---------------------------------------------------------------------------
  // Reductions: `cart.reduce((acc, item) => acc + w(item), 0)`

  /** Left-to-right sum of `w` over the cart, the value `reduce` with seed 0 yields. */
  function SumBy(c: Cart, w: Item -> int): int
    decreases |c|
  {
    if |c| == 0 then 0 else SumBy(c[..|c| - 1], w) + w(c[|c| - 1])
  }

  function Quantity(it: Item): int { it.quantity }

  function Subtotal(it: Item): int { it.price * it.quantity }

  /** The badge number: sum of the quantities. */
  function ItemCount(c: Cart): int { SumBy(c, Quantity) }

  /** The amount due: sum of price times quantity. */
  function Total(c: Cart): int { SumBy(c, Subtotal) }

  /** The accumulator loop `reduce` runs, computing the recursive sum. */
  method Reduce(c: Cart, w: Item -> int) returns (acc: int)
    ensures acc == SumBy(c, w)
  {
    acc := 0;
    var i := 0;
    while i < |c|
      invariant 0 <= i <= |c|
      invariant acc == SumBy(c[..i], w)
    {
      assert c[..i + 1][..i] == c[..i];
      acc := acc + w(c[i]);
      i := i + 1;
    }
    assert c[..|c|] == c;
  }

  lemma {:induction false} SumByAppend(a: Cart, b: Cart, w: Item -> int)
    ensures SumBy(a + b, w) == SumBy(a, w) + SumBy(b, w)
    decreases |b|
  {
    if |b| == 0 {
      assert a + b == a;
    } else {
      var b' := b[..|b| - 1];
      assert (a + b)[..|a + b| - 1] == a + b';
      assert (a + b)[|a + b| - 1] == b[|b| - 1];
      SumByAppend(a, b', w);
    }
  }

  /** Replacing one line changes the sum by exactly that line's difference. */
  lemma {:induction false} SumByUpdateAt(c: Cart, k: int, x: Item, w: Item -> int)
    requires 0 <= k < |c|
    ensures SumBy(c[k := x], w) == SumBy(c, w) - w(c[k]) + w(x)
    decreases |c|
  {
    var n := |c| - 1;
    if k == n {
      assert c[k := x][..n] == c[..n];
    } else {
      assert c[k := x][..n] == c[..n][k := x];
      SumByUpdateAt(c[..n], k, x, w);
    }
  }

  /** A sum splits around any line. */
  lemma SumBySplit(c: Cart, k: int, w: Item -> int)
    requires 0 <= k < |c|
    ensures SumBy(c, w) == SumBy(c[..k], w) + w(c[k]) + SumBy(c[k + 1..], w)
  {
    assert c == c[..k] + [c[k]] + c[k + 1..];
    SumByAppend(c[..k] + [c[k]], c[k + 1..], w);
    assert (c[..k] + [c[k]])[..k] == c[..k];
  }

  /** With every quantity at least 1, the count is at least the number of lines,
      so it is zero exactly for the empty cart. */
  lemma {:induction false} CountAtLeastLines(c: Cart)
    requires PositiveQuantities(c)
    ensures ItemCount(c) >= |c|
    ensures ItemCount(c) == 0 <==> c == []
    decreases |c|
  {
    if |c| > 0 {
      var n := |c| - 1;
      assert PositiveQuantities(c[..n]);
      CountAtLeastLines(c[..n]);
    }
  }

  /** With every price and quantity at least 1, the total is at least the number
      of lines, so it is positive exactly for a non-empty cart. */
  lemma {:induction false} TotalAtLeastLines(c: Cart)
    requires forall i :: 0 <= i < |c| ==> c[i].price >= 1 && c[i].quantity >= 1
    ensures Total(c) >= |c|
    ensures Total(c) > 0 <==> c != []
    decreases |c|
  {
    if |c| > 0 {
      var n := |c| - 1;
      TotalAtLeastLines(c[..n]);
      var x := c[n];
      assert x.price * x.quantity >= x.quantity by {
        assert x.price * x.quantity == (x.price - 1) * x.quantity + x.quantity;
        assert (x.price - 1) * x.quantity >= 0;
      }
    }
  }

  /** Two lines: 10.00 x 2 and 5.00 x 1 give a total of 25.00 and a count of 3. */
  lemma TwoLineScenario(p1: Item, p2: Item)
    requires p1.price == 1000 && p1.quantity == 2
    requires p2.price == 500 && p2.quantity == 1
    ensures Total([p1, p2]) == 2500
    ensures ItemCount([p1, p2]) == 3
  {
    assert [p1, p2][..1] == [p1];
    assert [p1][..0] == [];
    assert SumBy([p1], Subtotal) == Subtotal(p1) == 2000;
    assert SumBy([p1], Quantity) == Quantity(p1);
  }

  // ---------------------------------------------------------------------------
  // Keyed update: `cart.map(item => item._id === id ? { ...item, PRODUCT_QUANTITY: f(q) } : item)`

  /** The line `it` with its quantity passed through `f`. */
  function WithQuantity(it: Item, f: int -> int): Item {
    it.(quantity := f(it.quantity))
  }

  function Retouch(id: string, f: int -> int): Item -> Item {
    (it: Item) => if it.id == id then WithQuantity(it, f) else it
  }

  /** Every line whose `_id` is `id` has its quantity passed through `f`; every
      other line, the order and the length stay as they were. */
  function Adjust(c: Cart, id: string, f: int -> int): (r: Cart)
    ensures |r| == |c|
    ensures forall i :: 0 <= i < |c| && c[i].id == id ==> r[i] == WithQuantity(c[i], f)
    ensures forall i :: 0 <= i < |c| && c[i].id != id ==> r[i] == c[i]
    ensures Ids(r) == Ids(c)
    ensures DistinctIds(r) <==> DistinctIds(c)
  {
    var r := MapSeq(c, Retouch(id, f));
    assert forall i :: 0 <= i < |c| ==> r[i].id == c[i].id;
    r
  }

  /** An update keyed on an absent `_id` changes nothing. */
  lemma AdjustAbsent(c: Cart, id: string, f: int -> int)
    requires id !in Ids(c)
    ensures Adjust(c, id, f) == c
  {
    IdsIndex(c, id);
  }

  /** With distinct ids, a keyed update touches one line, so any sum over the cart
      moves by exactly that line's difference. */
  lemma AdjustSum(c: Cart, id: string, f: int -> int, w: Item -> int, k: int)
    requires DistinctIds(c) && 0 <= k < |c| && c[k].id == id
    ensures SumBy(Adjust(c, id, f), w) == SumBy(c, w) - w(c[k]) + w(WithQuantity(c[k], f))
  {
    var x := WithQuantity(c[k], f);
    assert Adjust(c, id, f) == c[k := x];
    SumByUpdateAt(c, k, x, w);
  }

  /** Dropping lines keeps the remaining ids distinct. */
  lemma {:induction false} FilterKeepsDistinct(c: Cart, keep: Item -> bool)
    requires DistinctIds(c)
    ensures DistinctIds(Filter(c, keep))
    decreases |c|
  {
    if c != [] {
      FilterKeepsDistinct(c[1..], keep);
      if keep(c[0]) {
        HeadAbsentFromFilteredTail(c, keep);
        ConsDistinct(c[0], Filter(c[1..], keep));
      }
    }
  }

  /** In a cart with distinct ids, no line kept from the tail shares the head's id. */
  lemma HeadAbsentFromFilteredTail(c: Cart, keep: Item -> bool)
    requires c != [] && DistinctIds(c)
    ensures forall j :: 0 <= j < |Filter(c[1..], keep)| ==> Filter(c[1..], keep)[j].id != c[0].id
  {
    var rest := Filter(c[1..], keep);
    FilterMembers(c[1..], keep);
    forall j | 0 <= j < |rest|
      ensures rest[j].id != c[0].id
    {
      assert rest[j] in c[1..];
      var m :| 0 <= m < |c[1..]| && c[1..][m] == rest[j];
      assert c[m + 1] == rest[j];
    }
  }

  /** Prepending a line whose id the rest lacks keeps ids distinct. */
  lemma ConsDistinct(x: Item, rest: Cart)
    requires DistinctIds(rest)
    requires forall j :: 0 <= j < |rest| ==> rest[j].id != x.id
    ensures DistinctIds([x] + rest)
  {
    var r := [x] + rest;
    forall i, j | 0 <= i < j < |r|
      ensures r[i].id != r[j].id
    {
      assert r[j] == rest[j - 1];
      if i > 0 {
        assert r[i] == rest[i - 1];
      }
    }
  }

  /** Dropping lines keeps the remaining quantities positive. */
  lemma FilterKeepsPositive(c: Cart, keep: Item -> bool)
    requires PositiveQuantities(c)
    ensures PositiveQuantities(Filter(c, keep))
  {
    var r := Filter(c, keep);
    FilterMembers(c, keep);
    forall i | 0 <= i < |r|
      ensures r[i].quantity >= 1
    {
      assert r[i] in c;
    }
  }

  /** Dropping lines keeps both halves of the well-formed shape. */
  lemma FilterKeepsShape(c: Cart, keep: Item -> bool)
    ensures DistinctIds(c) ==> DistinctIds(Filter(c, keep))
    ensures PositiveQuantities(c) ==> PositiveQuantities(Filter(c, keep))
  {
    if DistinctIds(c) { FilterKeepsDistinct(c, keep); }
    if PositiveQuantities(c) { FilterKeepsPositive(c, keep); }
  }
}

=== FILE: cart_sync.dfy ===
/** The part the catalog page and the dashboard share verbatim: a cart
    initialised from storage, and an effect that runs after every cart change,
    writing the cart back under `cartItems` and recomputing the item count. */
module CartSync {
  import opened Cart
  import opened Storage

  /** The cart-related state of a page: the cart, the storage it mirrors into and
      the displayed item count. */
  datatype Host = Host(cart: Cart, store: Store, count: int)

  /** The stored snapshot is the in-memory cart and the count is its item count. */
  predicate Synced(h: Host) {
    CartKey in h.store && h.store[CartKey] == h.cart && h.count == ItemCount(h.cart)
  }

  /** The `[cartItems]` effect: mirror the cart into storage, recompute the count.
      The cart itself and every other stored key are left alone. */
  function Effect(h: Host): (r: Host)
    ensures Synced(r)
    ensures r.cart == h.cart
    ensures forall k :: k in h.store && k != CartKey ==> k in r.store && r.store[k] == h.store[k]
  {
    Host(h.cart, SetItem(h.store, CartKey, h.cart), ItemCount(h.cart))
  }

  /** Mounting: the cart starts from the stored snapshot (or empty), the count from
      0, and the effect then runs once. */
  function Mount(s: Store): (r: Host)
    ensures Synced(r)
    ensures CartKey in s ==> r.cart == s[CartKey]
    ensures CartKey !in s ==> r.cart == [] && r.count == 0
  {
    Effect(Host(LoadCart(s), s, 0))
  }

  /** `setCartItems(c)` followed by the effect it triggers. */
  function SetCart(h: Host, c: Cart): (r: Host)
    ensures Synced(r) && r.cart == c
  {
    Effect(h.(cart := c))
  }

  /** The cart dialog's mount effect as the page sees it: `setCartItems` with the
      stored cart when the key holds one, followed by the page's effect. */
  function DialogMounted(h: Host): (r: Host)
    ensures Synced(r)
    ensures CartKey in h.store ==> r.cart == h.store[CartKey]
    ensures CartKey !in h.store ==> r.cart == h.cart
    ensures forall k :: k in h.store && k != CartKey ==> k in r.store && r.store[k] == h.store[k]
  {
    SetCart(h, StoredCartOr(h.store, h.cart))
  }

  /** A completed order as the page sees it: the dialog removes the stored cart and
      sets the page's cart to empty, and the page's effect then writes `[]` back. */
  function OrderSucceeded(h: Host): (r: Host)
    ensures Synced(r) && r.cart == [] && r.count == 0
    ensures forall k :: k in h.store && k != CartKey ==> k in r.store && r.store[k] == h.store[k]
  {
    SetCart(h.(store := RemoveItem(h.store, CartKey)), [])
  }

  /** On a synced page the dialog's mount read changes nothing. */
  lemma DialogMountedKeepsSynced(h: Host)
    requires Synced(h)
    ensures DialogMounted(h) == h
  {
  }

  /** After a completed order the button is disabled, no badge shows, and a reload
      starts from the empty cart. */
  lemma OrderThenReload(h: Host)
    ensures CartButtonDisabled(OrderSucceeded(h)) && !BadgeShown(OrderSucceeded(h))
    ensures Mount(OrderSucceeded(h).store).cart == []
  {
  }

  /** Reload round trip: mounting from the storage of a synced page restores
      exactly its cart and its count. */
  lemma ReloadRestores(h: Host)
    requires Synced(h)
    ensures Mount(h.store).cart == h.cart
    ensures Mount(h.store).count == h.count
  {
  }

  /** The effect is idempotent: running it on a synced page changes nothing. */
  lemma EffectIdempotent(h: Host)
    requires Synced(h)
    ensures Effect(h) == h
  {
  }

  /** `disabled={!cartItemCount}` on the cart and finalize buttons. */
  predicate CartButtonDisabled(h: Host) {
    h.count == 0
  }

  /** `cartItemCount > 0 && <Badge>`. */
  predicate BadgeShown(h: Host) {
    h.count > 0
  }

  /** On a synced page whose quantities are all positive, the button is disabled
      exactly for the empty cart and the badge shows exactly when it is enabled. */
  lemma ButtonAndBadge(h: Host)
    requires Synced(h) && PositiveQuantities(h.cart)
    ensures CartButtonDisabled(h) <==> h.cart == []
    ensures BadgeShown(h) <==> !CartButtonDisabled(h)
  {
    CountAtLeastLines(h.cart);
  }
}

=== FILE: dialog_carrinho.dfy ===
/** The cart dialog: line edits (remove, typed quantity, minus, plus), the total,
    the order payload built on "Finalizar compra", and the reaction to the
    order-creation outcome. The HTTP call itself is an input `Outcome`. */
module DialogCarrinho {
  import opened Base
  import opened Cart
  import Storage

  // ---------------------------------------------------------------------------
  // Line edits

  function KeepOthers(id: string): Item -> bool {
    (it: Item) => it.id != id
  }

  /** `handleRemoveFromCart`: drop every line with this `_id`, keep the rest in order. */
  function Remove(c: Cart, id: string): (r: Cart)
    ensures id !in Ids(r)
    ensures forall i :: 0 <= i < |r| ==> r[i] in c
    ensures forall i :: 0 <= i < |c| && c[i].id != id ==> c[i] in r
    ensures IsSubsequence(r, c)
    ensures forall x :: multiset(r)[x] == if x.id != id then multiset(c)[x] else 0
    ensures id !in Ids(c) ==> r == c
    ensures DistinctIds(c) ==> DistinctIds(r)
    ensures PositiveQuantities(c) ==> PositiveQuantities(r)
  {
    var r := Filter(c, KeepOthers(id));
    FilterKeepsShape(c, KeepOthers(id));
    FilterIsSubsequence(c, KeepOthers(id));
    FilterMembers(c, KeepOthers(id));
    IdsIndex(r, id);
    IdsIndex(c, id);
    forall x
      ensures multiset(r)[x] == if x.id != id then multiset(c)[x] else 0
    {
      FilterCount(c, KeepOthers(id), x);
    }
    r
  }

  function ConstantQuantity(q: int): int -> int {
    _ => q
  }

  /** `handleQuantityChange`: the matching lines take exactly `q`, whatever it is
      (zero and negative values included); nothing else changes. */
  function SetQuantity(c: Cart, id: string, q: int): (r: Cart)
    ensures |r| == |c| && Ids(r) == Ids(c)
    ensures forall i :: 0 <= i < |c| && c[i].id == id ==> r[i] == c[i].(quantity := q)
    ensures forall i :: 0 <= i < |c| && c[i].id != id ==> r[i] == c[i]
  {
    Adjust(c, id, ConstantQuantity(q))
  }

  /** `Math.max(1, q - 1)` */
  function StepDown(q: int): int { Max(1, q - 1) }

  /** `Math.min(99, q + 1)` */
  function StepUp(q: int): int { Min(99, q + 1) }

  /** `handleQuantityDecrease`: the matching lines lose one unit but never drop
      below 1; a line at 1 (or below) ends at exactly 1. */
  function Decrease(c: Cart, id: string): (r: Cart)
    ensures |r| == |c| && Ids(r) == Ids(c)
    ensures forall i :: 0 <= i < |c| && c[i].id != id ==> r[i] == c[i]
    ensures forall i :: 0 <= i < |c| && c[i].id == id ==>
      r[i].quantity >= 1 && r[i] == c[i].(quantity := r[i].quantity)
    ensures forall i :: 0 <= i < |c| && c[i].id == id && c[i].quantity >= 2 ==> r[i].quantity == c[i].quantity - 1
    ensures forall i :: 0 <= i < |c| && c[i].id == id && c[i].quantity <= 1 ==> r[i].quantity == 1
  {
    Adjust(c, id, StepDown)
  }

  /** `handleQuantityIncrease`: the matching lines gain one unit but never exceed 99;
      a line already at 99 or above ends at exactly 99. */
  function Increase(c: Cart, id: string): (r: Cart)
    ensures |r| == |c| && Ids(r) == Ids(c)
    ensures forall i :: 0 <= i < |c| && c[i].id != id ==> r[i] == c[i]
    ensures forall i :: 0 <= i < |c| && c[i].id == id ==>
      r[i].quantity <= 99 && r[i] == c[i].(quantity := r[i].quantity)
    ensures forall i :: 0 <= i < |c| && c[i].id == id && c[i].quantity <= 98 ==> r[i].quantity == c[i].quantity + 1
    ensures forall i :: 0 <= i < |c| && c[i].id == id && c[i].quantity >= 99 ==> r[i].quantity == 99
  {
    Adjust(c, id, StepUp)
  }

  /** On a one-line cart, minus on that line is `Math.max(1, q - 1)` on its quantity. */
  lemma DecreaseSingle(x: Item)
    ensures Decrease([x], x.id) == [x.(quantity := Max(1, x.quantity - 1))]
  {
    var r := Decrease([x], x.id);
    assert |r| == 1 && r[0] == WithQuantity(x, StepDown);
  }

  /** The gestures the dialog offers on a line. */
  datatype CartEdit =
    | Trash(id: string)                      // the red bin icon
    | TypeQuantity(id: string, quantity: int) // the quantity text field, already parsed
    | Minus(id: string)
    | Plus(id: string)

  function ApplyEdit(c: Cart, e: CartEdit): (r: Cart)
    ensures DistinctIds(c) ==> DistinctIds(r)
    ensures WellFormed(c) && (e.TypeQuantity? ==> e.quantity >= 1) ==> WellFormed(r)
  {
    match e
    case Trash(id) => Remove(c, id)
    case TypeQuantity(id, q) => SetQuantity(c, id, q)
    case Minus(id) => Decrease(c, id)
    case Plus(id) =>
      var r := Increase(c, id);
      assert PositiveQuantities(c) ==> PositiveQuantities(r);
      r
  }

  // ---------------------------------------------------------------------------
  // Properties of the edits

  /** With distinct ids, removing a present line lowers every sum over the cart
      (item count, total) by exactly that line's contribution. */
  lemma RemoveSum(c: Cart, k: int, w: Item -> int)
    requires DistinctIds(c) && 0 <= k < |c|
    ensures SumBy(Remove(c, c[k].id), w) == SumBy(c, w) - w(c[k])
  {
    RemoveSplits(c, k);
    SumBySplit(c, k, w);
    SumByAppend(c[..k], c[k + 1..], w);
  }

  /** With distinct ids, removing a present line is cutting it out of the sequence. */
  lemma RemoveSplits(c: Cart, k: int)
    requires DistinctIds(c) && 0 <= k < |c|
    ensures Remove(c, c[k].id) == c[..k] + c[k + 1..]
  {
    var keep := KeepOthers(c[k].id);
    assert forall i :: 0 <= i < |c| && i != k ==> keep(c[i]);
    FilterDropsOne(c, k, keep);
  }

  /** Setting the typed quantity twice is the same as setting it once. */
  lemma SetQuantityIdempotent(c: Cart, id: string, q: int)
    ensures SetQuantity(SetQuantity(c, id, q), id, q) == SetQuantity(c, id, q)
  {
  }

  /** With distinct ids, typing `q` on a present line moves the total by exactly
      its price times the change in quantity. */
  lemma SetQuantityTotal(c: Cart, k: int, q: int)
    requires DistinctIds(c) && 0 <= k < |c|
    ensures Total(SetQuantity(c, c[k].id, q)) == Total(c) + c[k].price * (q - c[k].quantity)
  {
    AdjustSum(c, c[k].id, ConstantQuantity(q), Subtotal, k);
    assert c[k].price * (q - c[k].quantity) == c[k].price * q - c[k].price * c[k].quantity;
  }

  /** Minus undoes Plus on lines that are inside [1, 98]. */
  lemma DecreaseUndoesIncrease(c: Cart, id: string)
    requires forall i :: 0 <= i < |c| && c[i].id == id ==> 1 <= c[i].quantity <= 98
    ensures Decrease(Increase(c, id), id) == c
  {
  }

  /** Plus undoes Minus on lines that are inside [2, 99]. */
  lemma IncreaseUndoesDecrease(c: Cart, id: string)
    requires forall i :: 0 <= i < |c| && c[i].id == id ==> 2 <= c[i].quantity <= 99
    ensures Increase(Decrease(c, id), id) == c
  {
  }

  /** Every quantity inside [1, 99]. */
  predicate WithinBounds(c: Cart) {
    forall i :: 0 <= i < |c| ==> 1 <= c[i].quantity <= 99
  }

  /** The two buttons keep a cart inside [1, 99]; removing a line does too. */
  lemma ButtonsKeepBounds(c: Cart, id: string)
    requires WithinBounds(c)
    ensures WithinBounds(Increase(c, id))
    ensures WithinBounds(Decrease(c, id))
    ensures WithinBounds(Remove(c, id))
  {
  }

  /** The typed quantity is not clamped: it can leave [1, 99] in either direction. */
  lemma TypedQuantityUnclamped(c: Cart, k: int)
    requires 0 <= k < |c|
    ensures SetQuantity(c, c[k].id, 0)[k].quantity == 0
    ensures SetQuantity(c, c[k].id, 150)[k].quantity == 150
  {
  }

  // ---------------------------------------------------------------------------
  // Submission

  /** One `CART_PRODUCT` entry. */
  datatype OrderLine = OrderLine(productId: string, quantity: int)

  /** The body sent to `/cart/create`. `userId` is whatever `localStorage` holds
      under `userId` (possibly nothing). */
  datatype Payload = Payload(userId: Option<string>, products: seq<OrderLine>)

  function ToOrderLine(it: Item): OrderLine { OrderLine(it.id, it.quantity) }

  /** The payload built by `handleSubmit`: one entry per line, in cart order. */
  function MakePayload(userId: Option<string>, c: Cart): (r: Payload)
    ensures r.userId == userId
    ensures |r.products| == |c|
    ensures forall i :: 0 <= i < |c| ==> r.products[i].productId == c[i].id && r.products[i].quantity == c[i].quantity
  {
    Payload(userId, MapSeq(c, ToOrderLine))
  }

  function OrderedUnits(ls: seq<OrderLine>): int
    decreases |ls|
  {
    if ls == [] then 0 else OrderedUnits(ls[..|ls| - 1]) + ls[|ls| - 1].quantity
  }

  /** The payload orders exactly as many units as the badge shows. */
  lemma {:induction false} PayloadUnits(userId: Option<string>, c: Cart)
    ensures OrderedUnits(MakePayload(userId, c).products) == ItemCount(c)
    decreases |c|
  {
    if c != [] {
      var n := |c| - 1;
      PayloadUnits(userId, c[..n]);
      assert MakePayload(userId, c).products[..n] == MakePayload(userId, c[..n]).products;
    }
  }

  /** The request-creation hook reports exactly one of these. */
  datatype Outcome = Success | Error | Conflict409

  /** The dialog's own state next to the cart it edits. `payload` is `None` until
      the first submit (`{}` in the component). */
  datatype Dialog = Dialog(
    cart: Cart,
    store: Storage.Store,
    userId: Option<string>,
    total: int,
    totalFinal: int,
    payload: Option<Payload>,
    posted: bool)

  /** The stored snapshot is the cart and the displayed total is its total. */
  predicate Synced(d: Dialog) {
    Storage.CartKey in d.store && d.store[Storage.CartKey] == d.cart && d.total == Total(d.cart)
  }

  /** The `[cartItems]` effect of the dialog: mirror into storage, recompute the total. */
  function Sync(d: Dialog): (r: Dialog)
    ensures Synced(r)
    ensures r.cart == d.cart && r.payload == d.payload && r.posted == d.posted && r.totalFinal == d.totalFinal
    ensures r.userId == d.userId
    ensures r.store.Keys == d.store.Keys + {Storage.CartKey}
    ensures forall k :: k in d.store && k != Storage.CartKey ==> k in r.store && r.store[k] == d.store[k]
  {
    d.(store := Storage.SetItem(d.store, Storage.CartKey, d.cart), total := Total(d.cart))
  }

  /** The component mounting with the page that renders it (closing and
      reopening the dialog keeps this state): initial local state, then the mount
      effect replaces the page's cart by the stored snapshot when there is one,
      then the cart effect runs. */
  function Mount(cart: Cart, store: Storage.Store, userId: Option<string>): (r: Dialog)
    ensures Synced(r) && !r.posted && r.payload == None && r.totalFinal == 0
    ensures Storage.CartKey in store ==> r.cart == store[Storage.CartKey]
    ensures Storage.CartKey !in store ==> r.cart == cart
    ensures r.userId == userId
    ensures forall k :: k in store && k != Storage.CartKey ==> k in r.store && r.store[k] == store[k]
  {
    Sync(Dialog(Storage.StoredCartOr(store, cart), store, userId, 0, 0, None, false))
  }

  /** A gesture on a line, followed by the effect it triggers. */
  function Edit(d: Dialog, e: CartEdit): (r: Dialog)
    ensures Synced(r)
    ensures r.cart == ApplyEdit(d.cart, e)
    ensures r.payload == d.payload && r.posted == d.posted
    ensures r.totalFinal == d.totalFinal && r.userId == d.userId
    ensures r.store.Keys == d.store.Keys + {Storage.CartKey}
    ensures forall k :: k in d.store && k != Storage.CartKey ==> k in r.store && r.store[k] == d.store[k]
  {
    Sync(d.(cart := ApplyEdit(d.cart, e)))
  }

  /** The finalize button is disabled exactly when the total is not positive. */
  predicate FinalizeDisabled(d: Dialog) {
    d.total <= 0
  }

  /** When every price and quantity is at least 1, the dialog's finalize button is
      disabled exactly for the empty cart. */
  lemma FinalizeDisabledIffEmpty(d: Dialog)
    requires Synced(d)
    requires forall i :: 0 <= i < |d.cart| ==> d.cart[i].price >= 1 && d.cart[i].quantity >= 1
    ensures FinalizeDisabled(d) <==> d.cart == []
  {
    TotalAtLeastLines(d.cart);
  }

  /** `handleSubmit`: snapshot the cart into the payload and raise `posted`.
      The current value of `posted` is not consulted. */
  function Submit(d: Dialog): (r: Dialog)
    ensures r.posted
    ensures r.payload == Some(MakePayload(d.userId, d.cart))
    ensures r.cart == d.cart && r.store == d.store && r.total == d.total && r.totalFinal == d.totalFinal
    ensures r.userId == d.userId
  {
    d.(payload := Some(MakePayload(d.userId, d.cart)), posted := true)
  }

  /** The outcome effect. Success: `posted` drops, the stored cart is removed,
      `totalFinal` takes the current total and the cart empties. Error or 409:
      `posted` drops and nothing else changes. */
  function OnOutcome(d: Dialog, o: Outcome): (r: Dialog)
    ensures !r.posted && r.payload == d.payload && r.userId == d.userId
    ensures o == Success ==> r.cart == [] && Storage.CartKey !in r.store && r.totalFinal == d.total
    ensures o == Success ==> r.total == d.total && r.store.Keys == d.store.Keys - {Storage.CartKey}
    ensures o == Success ==> forall k :: k in d.store && k != Storage.CartKey ==> k in r.store && r.store[k] == d.store[k]
    ensures o != Success ==> r == d.(posted := false)
  {
    match o
    case Success =>
      d.(posted := false, store := Storage.RemoveItem(d.store, Storage.CartKey), totalFinal := d.total, cart := [])
    case Error => d.(posted := false)
    case Conflict409 => d.(posted := false)
  }

  /** The outcome effect and, on success, the cart effect that the emptied cart
      triggers (which writes the empty cart back under `cartItems`). */
  function Resolve(d: Dialog, o: Outcome): (r: Dialog)
    ensures !r.posted && r.payload == d.payload && r.userId == d.userId
    ensures o == Success ==> Synced(r) && r.cart == [] && r.total == 0 && r.totalFinal == d.total
    ensures o == Success ==> r.store.Keys == d.store.Keys + {Storage.CartKey}
    ensures o == Success ==> forall k :: k in d.store && k != Storage.CartKey ==> k in r.store && r.store[k] == d.store[k]
    ensures o != Success ==> r == d.(posted := false)
  {
    if o == Success then Sync(OnOutcome(d, o)) else OnOutcome(d, o)
  }

  /** Success empties both the cart and its stored snapshot, reports the total the
      cart had just before clearing, and leaves nothing to submit. */
  lemma SuccessClears(d: Dialog)
    requires Synced(d)
    ensures var r := Resolve(d, Success);
      && r.cart == [] && Storage.LoadCart(r.store) == []
      && r.totalFinal == Total(d.cart)
      && !r.posted && r.total == 0 && FinalizeDisabled(r)
  {
  }

  /** Error and 409 keep the cart, its snapshot and its total, and allow a retry. */
  lemma FailureKeepsCart(d: Dialog, o: Outcome)
    requires Synced(d) && o != Success
    ensures var r := Resolve(d, o);
      && r.cart == d.cart && r.store == d.store && Synced(r)
      && !r.posted && Submit(r).payload == Submit(d).payload
  {
  }

  /** No double-submit guard: a second submit while `posted` is already raised
      behaves exactly as a first one. */
  lemma SubmitIgnoresPosted(d: Dialog)
    ensures Submit(d.(posted := true)) == Submit(d.(posted := false))
    ensures Submit(Submit(d)) == Submit(d)
  {
  }

  /** Edits made while a request is pending do not reach the payload already built. */
  lemma EditKeepsPayload(d: Dialog, e: CartEdit)
    ensures Edit(Submit(d), e).payload == Some(MakePayload(d.userId, d.cart))
  {
  }

  /** `totalFinal` is the live total when the success arrives, not the total of the
      submitted snapshot: one Plus between submit and success reports twice the
      price of a single-unit order. */
  lemma TotalFinalIsLiveTotal(p: Item, s: Storage.Store)
    requires p.price == 1000 && p.quantity == 1
    ensures var d := Edit(Submit(Mount([p], s - {Storage.CartKey}, None)), Plus(p.id));
      && d.payload == Some(Payload(None, [OrderLine(p.id, 1)]))
      && Resolve(d, Success).totalFinal == 2000
  {
    var d0 := Mount([p], s - {Storage.CartKey}, None);
    assert d0.cart == [p];
    var d1 := Submit(d0);
    assert MakePayload(None, [p]).products == [OrderLine(p.id, 1)];
    var d2 := Edit(d1, Plus(p.id));
    assert d2.cart == [p.(quantity := 2)];
    assert [p.(quantity := 2)][..0] == [];
    assert Subtotal(p.(quantity := 2)) == 2000;
    assert Total([p.(quantity := 2)]) == SumBy([], Subtotal) + 2000;
  }
}

=== FILE: page_mercado.dfy ===
/** The catalog page: add-to-cart merging by `_id`, the category and search
    filter over the product list, and the page's cart lifecycle (mount, events,
    the storage-mirroring effect, the badge and the finalize button). */
module PageMercado {
  import opened Base
  import opened Cart
  import opened Storage
  import opened CartSync
  import DialogCarrinho

  // ---------------------------------------------------------------------------
  // Add to cart

  function Succ(q: int): int { q + 1 }

  /** `handleAddToCart`: a product already in the cart gains one unit (no upper
      bound), every other line is untouched; a new product is appended with
      quantity 1, overwriting the catalog's stock figure. */
  function AddToCart(c: Cart, p: Item): (r: Cart)
    ensures p.id in Ids(c) ==> |r| == |c| && Ids(r) == Ids(c)
    ensures |r| >= |c|
    ensures forall i :: 0 <= i < |c| && c[i].id == p.id ==> r[i] == c[i].(quantity := c[i].quantity + 1)
    ensures forall i :: 0 <= i < |c| && c[i].id != p.id ==> r[i] == c[i]
    ensures p.id !in Ids(c) ==> r == c + [p.(quantity := 1)]
  {
    IdsIndex(c, p.id);
    if p.id in Ids(c) then Adjust(c, p.id, Succ) else c + [p.(quantity := 1)]
  }

  /** An add keeps ids distinct and quantities positive. */
  lemma AddKeepsShape(c: Cart, p: Item)
    ensures DistinctIds(c) ==> DistinctIds(AddToCart(c, p))
    ensures PositiveQuantities(c) ==> PositiveQuantities(AddToCart(c, p))
  {
    IdsIndex(c, p.id);
  }

  /** With distinct ids, every add raises the item count by exactly one. */
  lemma AddCountsOne(c: Cart, p: Item)
    requires DistinctIds(c)
    ensures ItemCount(AddToCart(c, p)) == ItemCount(c) + 1
  {
    IdsIndex(c, p.id);
    if p.id in Ids(c) {
      var k :| 0 <= k < |c| && c[k].id == p.id;
      AdjustSum(c, p.id, Succ, Quantity, k);
    } else {
      assert (c + [p.(quantity := 1)])[..|c|] == c;
    }
  }

  /** With distinct ids, an add raises the total by one unit price: the price the
      cart line already carries, or the catalog price for a new line. */
  lemma AddTotal(c: Cart, p: Item)
    requires DistinctIds(c)
    ensures forall k :: 0 <= k < |c| && c[k].id == p.id ==> Total(AddToCart(c, p)) == Total(c) + c[k].price
    ensures p.id !in Ids(c) ==> Total(AddToCart(c, p)) == Total(c) + p.price
  {
    IdsIndex(c, p.id);
    forall k | 0 <= k < |c| && c[k].id == p.id
      ensures Total(AddToCart(c, p)) == Total(c) + c[k].price
    {
      AddTotalAt(c, p, k);
    }
    if p.id !in Ids(c) {
      assert (c + [p.(quantity := 1)])[..|c|] == c;
    }
  }

  /** The existing-line case of `AddTotal`. */
  lemma AddTotalAt(c: Cart, p: Item, k: int)
    requires DistinctIds(c) && 0 <= k < |c| && c[k].id == p.id
    ensures Total(AddToCart(c, p)) == Total(c) + c[k].price
  {
    AddIsAdjust(c, p, k);
    AdjustSum(c, p.id, Succ, Subtotal, k);
    SubtotalSucc(c[k]);
  }

  /** Adding a product the cart already holds is the quantity update by one. */
  lemma AddIsAdjust(c: Cart, p: Item, k: int)
    requires 0 <= k < |c| && c[k].id == p.id
    ensures AddToCart(c, p) == Adjust(c, p.id, Succ)
  {
    assert Ids(c)[k] == p.id;
  }

  /** One more unit adds one unit price to a line's subtotal. */
  lemma SubtotalSucc(it: Item)
    ensures Subtotal(WithQuantity(it, Succ)) == Subtotal(it) + it.price
  {
    assert it.price * (it.quantity + 1) == it.price * it.quantity + it.price;
  }

  /** Removing a product that was just added for the first time restores the cart. */
  lemma RemoveUndoesFirstAdd(c: Cart, p: Item)
    requires p.id !in Ids(c)
    ensures DialogCarrinho.Remove(AddToCart(c, p), p.id) == c
  {
    var keep := DialogCarrinho.KeepOthers(p.id);
    IdsIndex(c, p.id);
    FilterAppend(c, [p.(quantity := 1)], keep);
    assert Filter(c, keep) == c;
  }

  /** `n` clicks on the same product's buy button. */
  function AddTimes(c: Cart, p: Item, n: nat): Cart
    decreases n
  {
    if n == 0 then c else AddToCart(AddTimes(c, p, n - 1), p)
  }

  /** Repeated adds grow a line's quantity without limit: `n` adds raise it by `n`. */
  lemma {:induction false} AddTimesGrows(c: Cart, p: Item, n: nat, k: int)
    requires 0 <= k < |c| && c[k].id == p.id
    ensures |AddTimes(c, p, n)| == |c| && Ids(AddTimes(c, p, n)) == Ids(c)
    ensures AddTimes(c, p, n)[k].quantity == c[k].quantity + n
    decreases n
  {
    if n > 0 {
      var c' := AddTimes(c, p, n - 1);
      AddTimesGrows(c, p, n - 1, k);
      AddBumpsLine(c', p, k);
      assert AddTimes(c, p, n) == AddToCart(c', p);
    }
  }

  /** One add of a product already on line `k` raises that line by one and keeps
      the cart's shape. */
  lemma AddBumpsLine(c: Cart, p: Item, k: int)
    requires 0 <= k < |c| && c[k].id == p.id
    ensures |AddToCart(c, p)| == |c| && Ids(AddToCart(c, p)) == Ids(c)
    ensures AddToCart(c, p)[k].quantity == c[k].quantity + 1
  {
    assert Ids(c)[k] == p.id;
  }

  /** From an empty cart, one hundred adds reach quantity 100: past the 99 that
      the dialog's plus button caps at. */
  lemma AddHasNoCap(p: Item)
    ensures AddTimes([], p, 100) == AddTimes([p.(quantity := 1)], p, 99)
    ensures AddTimes([], p, 100)[0].quantity == 100
  {
    AddTimesShift([], p, 99);
    assert AddTimes([], p, 1) == [p.(quantity := 1)];
    assert Ids([p.(quantity := 1)])[0] == p.id;
    AddTimesGrows([p.(quantity := 1)], p, 99, 0);
  }

  lemma {:induction false} AddTimesShift(c: Cart, p: Item, n: nat)
    ensures AddTimes(c, p, n + 1) == AddTimes(AddToCart(c, p), p, n)
    decreases n
  {
    if n > 0 {
      AddTimesShift(c, p, n - 1);
    }
  }

  /** Two adds on an empty cart give one line at quantity 2. */
  lemma AddTwiceFromEmpty(p: Item)
    ensures AddToCart(AddToCart([], p), p) == [p.(quantity := 2)]
  {
    var c1 := AddToCart([], p);
    assert c1 == [p.(quantity := 1)];
    assert Ids(c1)[0] == p.id;
  }

  /** Two adds then two minus clicks leave the product at 1, not 0. */
  lemma AddTwiceDecreaseTwice(p: Item)
    ensures DialogCarrinho.Decrease(DialogCarrinho.Decrease(AddToCart(AddToCart([], p), p), p.id), p.id)
      == [p.(quantity := 1)]
  {
    AddTwiceFromEmpty(p);
    DialogCarrinho.DecreaseSingle(p.(quantity := 2));
    DialogCarrinho.DecreaseSingle(p.(quantity := 1));
  }

  // ---------------------------------------------------------------------------
  // Product filter

  /** ASCII `toLowerCase` on one character. */
  function LowerChar(ch: char): char {
    if 'A' <= ch <= 'Z' then (ch as int + 32) as char else ch
  }

  /** `toLowerCase`: same length, no upper-case letter left, everything else kept. */
  function ToLower(s: string): (r: string)
    ensures |r| == |s|
    ensures forall i :: 0 <= i < |s| ==> !('A' <= r[i] <= 'Z')
    ensures forall i :: 0 <= i < |s| && !('A' <= s[i] <= 'Z') ==> r[i] == s[i]
    ensures forall i :: 0 <= i < |s| && 'A' <= s[i] <= 'Z' ==> r[i] as int == s[i] as int + 32
  {
    MapSeq(s, LowerChar)
  }

  lemma ToLowerIdempotent(s: string)
    ensures ToLower(ToLower(s)) == ToLower(s)
  {
  }

  /** `t` occurs in `s` starting at offset `i`. */
  predicate OccursAt(s: string, t: string, i: int) {
    0 <= i && i + |t| <= |s| && s[i..i + |t|] == t
  }

  /** `s.includes(t)`: `t` is a prefix of `s` or of one of its suffixes. */
  predicate Includes(s: string, t: string)
    decreases |s|
  {
    t <= s || (s != [] && Includes(s[1..], t))
  }

  /** Dropping the first character shifts every occurrence one place left. */
  lemma OccursShift(s: string, t: string, i: int)
    requires s != [] && 0 <= i
    ensures OccursAt(s[1..], t, i) <==> OccursAt(s, t, i + 1)
  {
    if i + |t| <= |s| - 1 {
      assert s[1..][i..i + |t|] == s[i + 1..i + 1 + |t|];
    }
  }

  /** `includes` holds exactly when `t` occurs at some offset of `s`. */
  lemma {:induction false} IncludesIff(s: string, t: string)
    ensures Includes(s, t) <==> exists i :: OccursAt(s, t, i)
    decreases |s|
  {
    if s == [] {
      if exists i :: OccursAt(s, t, i) {
        var i :| OccursAt(s, t, i);
        assert t == [];
      }
      if t <= s {
        assert OccursAt(s, t, 0);
      }
    } else {
      IncludesIff(s[1..], t);
      if t <= s {
        assert s[0..|t|] == t;
        assert OccursAt(s, t, 0);
      }
      if exists i :: OccursAt(s[1..], t, i) {
        var i :| OccursAt(s[1..], t, i);
        OccursShift(s, t, i);
      }
      if exists i :: OccursAt(s, t, i) {
        var i :| OccursAt(s, t, i);
        if i == 0 {
          assert t <= s;
        } else {
          OccursShift(s, t, i - 1);
        }
      }
    }
  }

  /** `selectedCategory ? produto.PRODUCT_CATEGORY === selectedCategory : true`.
      The empty string is falsy, so selecting it filters nothing. */
  predicate CategoryMatches(selected: Option<string>, category: string) {
    selected.Some? && selected.value != "" ==> category == selected.value
  }

  /** Category match and case-insensitive search match. */
  predicate Matches(p: Item, selected: Option<string>, term: string) {
    CategoryMatches(selected, p.category) && Includes(ToLower(p.name), ToLower(term))
  }

  function MatchesFilter(selected: Option<string>, term: string): Item -> bool {
    (p: Item) => Matches(p, selected, term)
  }

  /** `filteredProdutos`: the products passing both tests, in catalog order. */
  function FilteredProducts(ps: seq<Item>, selected: Option<string>, term: string): (r: seq<Item>)
    ensures forall i :: 0 <= i < |r| ==> r[i] in ps && Matches(r[i], selected, term)
    ensures forall i :: 0 <= i < |ps| && Matches(ps[i], selected, term) ==> ps[i] in r
    ensures IsSubsequence(r, ps)
    ensures forall x :: multiset(r)[x] == if Matches(x, selected, term) then multiset(ps)[x] else 0
  {
    FilterMembers(ps, MatchesFilter(selected, term));
    forall x
      ensures multiset(Filter(ps, MatchesFilter(selected, term)))[x]
        == if Matches(x, selected, term) then multiset(ps)[x] else 0
    {
      FilterCount(ps, MatchesFilter(selected, term), x);
    }
    FilterIsSubsequence(ps, MatchesFilter(selected, term));
    Filter(ps, MatchesFilter(selected, term))
  }

  /** No category and an empty search show the whole catalog. */
  lemma NoCriteriaShowsAll(ps: seq<Item>)
    ensures FilteredProducts(ps, None, "") == ps
  {
    forall i | 0 <= i < |ps|
      ensures MatchesFilter(None, "")(ps[i])
    {
      assert "" <= ToLower(ps[i].name);
    }
  }

  /** Selecting the empty category name filters like selecting no category. */
  lemma EmptyCategoryIsNoCategory(ps: seq<Item>, term: string)
    ensures FilteredProducts(ps, Some(""), term) == FilteredProducts(ps, None, term)
  {
    FilterCongruent(ps, MatchesFilter(Some(""), term), MatchesFilter(None, term));
  }

  /** The search ignores the case of the term. */
  lemma SearchIgnoresCase(ps: seq<Item>, selected: Option<string>, term: string)
    ensures FilteredProducts(ps, selected, ToLower(term)) == FilteredProducts(ps, selected, term)
  {
    ToLowerIdempotent(term);
    FilterCongruent(ps, MatchesFilter(selected, ToLower(term)), MatchesFilter(selected, term));
  }

  // ---------------------------------------------------------------------------
  // The page

  /** The page's state: its cart host, the selected category and the search term. */
  datatype Page = Page(host: Host, category: Option<string>, search: string)

  /** Mounting: the cart comes from storage, no category, empty search. */
  function Open(s: Store): (r: Page)
    ensures Synced(r.host) && r.host.cart == LoadCart(s)
    ensures r.category == None && r.search == ""
  {
    Page(Mount(s), None, "")
  }

  /** What happens to the page: the user's handlers, edits made in the cart dialog
      (which receives the page's `setCartItems`), and the dialog's two other
      writes to that cart, at its mount and after a completed order. */
  datatype Event =
    | Buy(product: Item)
    | EditCart(edit: DialogCarrinho.CartEdit)
    | SelectCategory(category: Option<string>)
    | SearchChange(term: string)
    | DialogMount
    | OrderSuccess

  /** One handler, followed by the cart effect when the cart changed. */
  function Step(pg: Page, ev: Event): (r: Page)
    ensures Synced(pg.host) ==> Synced(r.host)
    ensures ev.Buy? ==> r.host.cart == AddToCart(pg.host.cart, ev.product) && Synced(r.host)
    ensures ev.EditCart? ==> r.host.cart == DialogCarrinho.ApplyEdit(pg.host.cart, ev.edit) && Synced(r.host)
    ensures ev.SelectCategory? ==> r == pg.(category := ev.category)
    ensures ev.SearchChange? ==> r == pg.(search := ev.term)
    ensures ev.DialogMount? ==> r == pg.(host := DialogMounted(pg.host))
    ensures ev.OrderSuccess? ==> r == pg.(host := OrderSucceeded(pg.host))
    ensures r.category == pg.category || ev.SelectCategory?
    ensures r.search == pg.search || ev.SearchChange?
    ensures forall k :: k in pg.host.store && k != CartKey ==> k in r.host.store && r.host.store[k] == pg.host.store[k]
  {
    match ev
    case Buy(p) => pg.(host := SetCart(pg.host, AddToCart(pg.host.cart, p)))
    case EditCart(e) => pg.(host := SetCart(pg.host, DialogCarrinho.ApplyEdit(pg.host.cart, e)))
    case SelectCategory(sel) => pg.(category := sel)
    case SearchChange(t) => pg.(search := t)
    case DialogMount => pg.(host := DialogMounted(pg.host))
    case OrderSuccess => pg.(host := OrderSucceeded(pg.host))
  }

  function Run(pg: Page, evs: seq<Event>): Page
    decreases |evs|
  {
    if evs == [] then pg else Run(Step(pg, evs[0]), evs[1..])
  }

  /** Every event except typing a quantity below 1 (completed orders included). */
  predicate KeepsShape(ev: Event) {
    ev.EditCart? && ev.edit.TypeQuantity? ==> ev.edit.quantity >= 1
  }

  /** Along any run of such events from a synced, well-formed page, storage keeps
      mirroring the cart, ids stay distinct, quantities stay positive, and so the
      finalize button is disabled exactly when the cart is empty. */
  lemma {:induction false} RunKeepsShape(pg: Page, evs: seq<Event>)
    requires Synced(pg.host) && WellFormed(pg.host.cart)
    requires forall i :: 0 <= i < |evs| ==> KeepsShape(evs[i])
    ensures Synced(Run(pg, evs).host) && WellFormed(Run(pg, evs).host.cart)
    ensures CartButtonDisabled(Run(pg, evs).host) <==> Run(pg, evs).host.cart == []
    ensures BadgeShown(Run(pg, evs).host) <==> !CartButtonDisabled(Run(pg, evs).host)
    decreases |evs|
  {
    if evs == [] {
      ButtonAndBadge(pg.host);
    } else {
      var next := Step(pg, evs[0]);
      if evs[0].Buy? {
        AddKeepsShape(pg.host.cart, evs[0].product);
      } else if evs[0].DialogMount? {
        DialogMountedKeepsSynced(pg.host);
      }
      assert WellFormed(next.host.cart);
      RunKeepsShape(next, evs[1..]);
    }
  }

  /** Typing 0 into a line leaves a non-empty cart whose finalize button is disabled. */
  lemma TypedZeroDisablesFinalize(p: Item, s: Store)
    requires p.quantity == 1
    ensures var pg := Step(Page(SetCart(Host([], s, 0), [p]), None, ""), EditCart(DialogCarrinho.TypeQuantity(p.id, 0)));
      && pg.host.cart != [] && CartButtonDisabled(pg.host)
  {
    var c := DialogCarrinho.SetQuantity([p], p.id, 0);
    assert c == [p.(quantity := 0)];
    assert DialogCarrinho.ApplyEdit([p], DialogCarrinho.TypeQuantity(p.id, 0)) == c;
    assert c[..0] == [];
    assert ItemCount(c) == SumBy([], Quantity) + 0;
  }
}

=== FILE: page_painel.dfy ===
/** The dashboard: the order-status badge lookup and the page's cart button,
    which shares the catalog page's storage-mirroring effect and item count. */
module PagePainel {
  import opened Cart
  import opened Storage
  import opened CartSync
  import DialogCarrinho

  /** The label (`caption`, since `label` is a Dafny keyword) and the colour class shown for an order status. */
  datatype StatusStyle = StatusStyle(caption: string, color: string)

  /** `statusMap` */
  const StatusMap: map<string, StatusStyle> := map[
    "active" := StatusStyle("Pendente", "bg-orange-400"),
    "completed" := StatusStyle("Concluída", "bg-green-500"),
    "canceled" := StatusStyle("Cancelada", "bg-red-500")
  ]

  const UnknownStatus: StatusStyle := StatusStyle("Desconhecido", "bg-gray-500")

  /** `getStatusLabelAndClass`: the three known statuses map to their own style,
      every other string falls back to "Desconhecido" in grey. */
  function StatusLabelAndClass(status: string): (r: StatusStyle)
    ensures status == "active" ==> r == StatusStyle("Pendente", "bg-orange-400")
    ensures status == "completed" ==> r == StatusStyle("Concluída", "bg-green-500")
    ensures status == "canceled" ==> r == StatusStyle("Cancelada", "bg-red-500")
    ensures status != "active" && status != "completed" && status != "canceled" ==>
      r == StatusStyle("Desconhecido", "bg-gray-500")
  {
    if status in StatusMap then StatusMap[status] else UnknownStatus
  }

  /** The lookup tells statuses apart: two strings get the same style only if they
      are equal or both unknown, and the fallback label marks exactly the unknown ones. */
  lemma StatusStylesDistinct(a: string, b: string)
    ensures StatusLabelAndClass(a) == StatusLabelAndClass(b) ==> a == b || (a !in StatusMap && b !in StatusMap)
    ensures StatusLabelAndClass(a).caption == "Desconhecido" <==> a !in StatusMap
    ensures StatusLabelAndClass(a).color == "bg-gray-500" <==> a !in StatusMap
  {
  }

  /** What the cart dialog rendered on the dashboard does to the dashboard's cart:
      a row edit, its mount read, or the clearing after a completed order. */
  datatype Event =
    | EditCart(edit: DialogCarrinho.CartEdit)
    | DialogMount
    | OrderSuccess

  /** One dialog write, followed by the dashboard's cart effect. */
  function Step(h: Host, e: Event): (r: Host)
    ensures Synced(r)
    ensures e.EditCart? ==> r.cart == DialogCarrinho.ApplyEdit(h.cart, e.edit)
    ensures e.DialogMount? ==> r == DialogMounted(h)
    ensures e.OrderSuccess? ==> r == OrderSucceeded(h)
    ensures forall k :: k in h.store && k != CartKey ==> k in r.store && r.store[k] == h.store[k]
  {
    match e
    case EditCart(edit) => SetCart(h, DialogCarrinho.ApplyEdit(h.cart, edit))
    case DialogMount => DialogMounted(h)
    case OrderSuccess => OrderSucceeded(h)
  }

  function Run(h: Host, es: seq<Event>): Host
    decreases |es|
  {
    if es == [] then h else Run(Step(h, es[0]), es[1..])
  }

  /** Along any run of dialog writes that never types a quantity below 1
      (completed orders included), the dashboard's cart button is disabled exactly
      for the empty cart and the badge is shown exactly when the button is enabled. */
  lemma {:induction false} RunKeepsButtonAndBadge(h: Host, es: seq<Event>)
    requires Synced(h) && WellFormed(h.cart)
    requires forall i :: 0 <= i < |es| ==> (es[i].EditCart? && es[i].edit.TypeQuantity? ==> es[i].edit.quantity >= 1)
    ensures Synced(Run(h, es)) && WellFormed(Run(h, es).cart)
    ensures CartButtonDisabled(Run(h, es)) <==> Run(h, es).cart == []
    ensures BadgeShown(Run(h, es)) <==> !CartButtonDisabled(Run(h, es))
    decreases |es|
  {
    if es == [] {
      ButtonAndBadge(h);
    } else {
      if es[0].DialogMount? {
        DialogMountedKeepsSynced(h);
      }
      RunKeepsButtonAndBadge(Step(h, es[0]), es[1..]);
    }
  }

  /** A typed negative quantity leaves the cart button enabled with no badge. */
  lemma NegativeQuantityHidesBadge(p: Item, s: Store)
    requires p.quantity == 1
    ensures var h := Step(SetCart(Host([], s, 0), [p]), EditCart(DialogCarrinho.TypeQuantity(p.id, -1)));
      && !CartButtonDisabled(h) && !BadgeShown(h)
  {
    var c := DialogCarrinho.SetQuantity([p], p.id, -1);
    assert c == [p.(quantity := -1)];
    assert DialogCarrinho.ApplyEdit([p], DialogCarrinho.TypeQuantity(p.id, -1)) == c;
    assert c[..0] == [];
    assert ItemCount(c) == SumBy([], Quantity) + -1;
  }
}

=== FILE: storage.dfy ===
/** The browser's `localStorage`, reduced to the part the cart uses: a key to
    cart map (JSON serialisation is abstracted away) with `setItem`,
    `removeItem`, and the `'[]'` default the pages read at mount. */
module Storage {
  import opened Cart

  type Store = map<string, Cart>

  /** The one key under which every component mirrors the cart. */
  const CartKey: string := "cartItems"

  /** `localStorage.setItem(key, JSON.stringify(c))`: the key now holds `c`,
      every other key is untouched. */
  function SetItem(s: Store, key: string, c: Cart): (r: Store)
    ensures key in r && r[key] == c
    ensures forall k :: k in s && k != key ==> k in r && r[k] == s[k]
    ensures r.Keys == s.Keys + {key}
  {
    s[key := c]
  }

  /** `localStorage.removeItem(key)`: the key is gone, every other key is untouched. */
  function RemoveItem(s: Store, key: string): (r: Store)
    ensures key !in r
    ensures forall k :: k in s && k != key ==> k in r && r[k] == s[k]
    ensures r.Keys == s.Keys - {key}
  {
    s - {key}
  }

  /** The stored cart when the key holds one, `current` otherwise. */
  function StoredCartOr(s: Store, current: Cart): Cart {
    if CartKey in s then s[CartKey] else current
  }

  /** `JSON.parse(localStorage.getItem('cartItems') || '[]')`. */
  function LoadCart(s: Store): Cart {
    StoredCartOr(s, [])
  }

  /** Reading the cart back returns what was last written: a reload right after a
      write observes that write. */
  lemma SaveThenLoad(s: Store, c: Cart)
    ensures LoadCart(SetItem(s, CartKey, c)) == c
  {
  }

  /** After the key is removed a reload starts from the empty cart. */
  lemma RemoveThenLoad(s: Store)
    ensures LoadCart(RemoveItem(s, CartKey)) == []
  {
  }
}
